=== FILE: README.md ===
# Developer social network backend: a Dafny model of its route handlers

This project models the decision and mutation logic of the backend routes of a
developer social network. Users register and log in. Each user keeps one
profile (status, skills, social links). Users write posts that others like
and comment on.

Each handler is a pure function. It takes the document store (`Store.Db`),
the user id the token middleware resolved, and the request. It returns a
`Store.Response`: the store after the request, and either the JSON answer
(`Ok`) or the HTTP status and messages of a rejection (`Fail`).

- `Store.Db` holds the `users` collection as a sequence in natural order, so
  `findOne({ email })` is the first match. Posts are a map keyed by post id.
  Profiles are a map keyed by their owner, which gives at most one profile
  per user.
- Library calls are function-valued fields of `Library.Lib`. These are
  express-validator's `isEmail`, bcrypt's `hash` and `compare`, and
  gravatar's `url`. The one fact assumed about them is `Library.Sound`: a
  password matches its own salted hash.
- A JSON Web Token is modelled as its claims `{ user: { id } }` plus its
  expiry (3600000 s, 1000 hours). The signature and secret are not modelled.
- An absent request field is modelled as `""`. express-validator treats an
  absent field as the empty string, and JavaScript treats `""` as falsy, so
  both behave the same.
- New ObjectIds (user, post, comment) are parameters with a freshness
  precondition. Uniqueness of ObjectIds is a guarantee of the database
  driver, not a check the handlers make.

The model follows the code where it departs from the intended design:

- Deleting a post or comment you do not own is refused with 401, not 403.
- Deleting, liking, unliking or commenting on a missing post dereferences
  `null` and ends in the catch block with 500. Only `GET /api/posts/:id`
  answers 400 "post not found".
- Login with an unknown email ("userid(email) does not  exists") and login
  with a wrong password ("incorrect credentials") give different messages.
  Both answer 400.
- For an account that no longer exists, `GET /api/auth` answers `null` with
  status 200 (`Ok(None)`), not a not-found error.
- The profile form requires `skills` on every submission. A second
  submission with only a new `status` is refused with 400
  (`Scenarios.ResubmitWithoutSkillsIsRefused`). Fields leave the stored
  values unchanged only when they are optional.
- Profile update resets `social` to `{}` before the `$set`. Links not in
  the current request are therefore cleared (`Profiles.UpsertMerges`).
- Comment deletion looks the comment up twice. `find` compares the string
  `comment.id` with the URL's comment id, so it finds the comment. The
  `indexOf` that picks the index to splice runs over the `_id` ObjectIds.
  What it answers depends on the array class the database driver supplies,
  which is not part of this model, so the handler takes it as a parameter
  (`Posts.IdLookup`):
  - `Strict`, the plain `Array.prototype.indexOf`: `===` never holds
    between an ObjectId and a string, the index is -1, and `splice(-1, 1)`
    drops the last (oldest) comment instead of the author's
    (`Posts.AddThenDeleteCommentStrict`).
  - `ByValue`, an `indexOf` that compares ObjectIds by their text: it finds
    the same comment as `find`, and that comment is removed
    (`Posts.AddThenDeleteComment`).

## Model

| member | source | states |
|---|---|---|
| Outcomes.ValidationErrors | routes/api/users.js:22-25 | the validation answer is empty exactly when all checks pass; every failing check's message is in it and every message in it comes from a failing check |
| Outcomes.ValidationErrorsAppend | routes/api/users.js:14-24 | messages keep declaration order: the answer for two consecutive groups of checks is the first group's answer followed by the second's |
| JsText.Split | routes/api/profile.js:67 | `split(',')` yields one piece more than there are commas, and no piece contains a comma |
| JsText.JoinSplit | routes/api/profile.js:67 | re-joining the pieces of a split with the separator gives back the original string |
| JsText.SplitJoin | routes/api/profile.js:67 | splitting a join of comma-free pieces gives back exactly those pieces |
| JsText.Trim | routes/api/profile.js:67 | `trim()` is a contiguous slice of its input; it neither starts nor ends with a JavaScript space; it drops only spaces on either side |
| JsText.TrimPadded | routes/api/profile.js:67 | a trimmed core with spaces on both sides trims to that core, an independent characterisation of `trim` |
| JsText.TrimIdempotent | routes/api/profile.js:67 | trimming twice equals trimming once |
| Profiles.ParseSkills | routes/api/profile.js:66-67 | parsed skills number one more than the commas; each is the trimmed segment at its position, in input order, with no comma and no edge spaces |
| Profiles.ParseSkillsOfJoin | routes/api/profile.js:66-67 | a comma-joined list of space-padded skills parses back to exactly those skills |
| Profiles.ProfileChecks | routes/api/profile.js:33-42 | validation passes exactly when status and skills are both non-empty; a missing status is reported first, a missing skills list alone gives only "skills required" |
| Profiles.BuildFields | routes/api/profile.js:58-75 | `profileFields.user` is the requester; each top-level field and each social link is present iff its request value is truthy, and then equals it; skills hold the parsed list |
| Profiles.SetFields | routes/api/profile.js:80-84 | the `$set` update: present keys overwrite, absent keys keep stored values, `social` is replaced whole, experience and education untouched |
| Profiles.NewProfile | routes/api/profile.js:87-88 | a created profile holds the present fields, unset optional strings and empty experience and education |
| Profiles.Upsert | routes/api/profile.js:39-89 | a request missing status or skills gets 400 with the failing messages and no write; otherwise only the requester's profile changes, created or updated |
| Profiles.UpsertMerges | routes/api/profile.js:70-85 | on update an empty field keeps its stored value and a given one replaces it; stored social links the request omits are cleared |
| Profiles.UpsertCreates | routes/api/profile.js:58-89 | with no stored profile, the created one holds exactly the request's truthy fields and parsed skills |
| Profiles.UpsertIdempotent | routes/api/profile.js:78-89 | submitting the same form twice leaves the same store and answer as submitting it once |
| Profiles.UpsertPreservesValid | routes/api/profile.js:78-89 | upsert keeps all store invariants; after success the requester has exactly one profile, filed under them |
| Profiles.FindProfile | routes/api/profile.js:13-18 | `Profile.findOne({ user })` finds a profile exactly when the user has one, answers it, and otherwise 400 with the route's message; never writes |
| Profiles.MyProfile | routes/api/profile.js:13-19 | answers the requester's profile, or 400 "no profile for this user"; never writes |
| Profiles.ProfileOfUser | routes/api/profile.js:116-122 | answers the profile of the given user, or 400 "not such profile with given id"; never writes |
| Profiles.RemoveUser | routes/api/profile.js:135 | `findOneAndRemove` removes at most one account; with unique ids no account of that id remains and all others stay |
| Profiles.DeleteAccount | routes/api/profile.js:134-136 | deletion removes the requester's profile and account, leaves posts untouched, and answers "user deleted " |
| Profiles.LookupsFollowWrites | routes/api/profile.js:13-19 | after an upsert both lookups answer the stored profile; after account deletion both answer their not-found message; other users' profiles are unaffected |
| Profiles.DeleteAccountRemovesExactly | routes/api/profile.js:134-135 | after deletion no profile or account of the requester remains; every other profile and account is unchanged; the invariants still hold |
| Store.FirstIndex | routes/api/posts.js:119-121 | `indexOf` returns -1 exactly when no element matches, else the first matching index |
| Store.SpliceOne | routes/api/posts.js:185 | `splice(i, 1)` removes element i when in range; a negative start counts from the end; a start past the end removes nothing |
| Store.SpliceMinusOneDropsLast | routes/api/posts.js:182-185 | an index of -1 from the `_id` lookup makes `splice` drop the last comment |
| Library.IssueToken | routes/api/users.js:59-73 | the token's claims name the given user id, and it expires after 3600000 seconds (1000 hours) |
| Store.FindUser | routes/api/auth.js:15 | `findById` finds a user iff one with that id is stored, and returns the first such user in store order |
| Store.FindByEmail | routes/api/users.js:31 | `findOne({ email })` finds a user iff one with that email is stored, and returns the first such user in store order |
| Users.MeasuredLength | routes/api/users.js:17 | the length `isLength` measures is the number of code points less the number of presentation selectors U+FE0E and U+FE0F, and the full length when there are none |
| Users.RegisterChecks | routes/api/users.js:14-18 | validation passes exactly for a non-empty name, an email `isEmail` accepts and a password of at least 6 measured characters; the first message names the first rule broken |
| Users.NewUser | routes/api/users.js:41-56 | the new account has the given name and email, the avatar derived from the email, and the salted hash in place of the password |
| Users.Register | routes/api/users.js:22-74 | validation failures give 400 with all messages and no lookup; a taken email gives 400 "userid(email) already exists" with no write; success appends exactly the new account and issues a token for its id |
| Users.RegisterPreservesValid | routes/api/users.js:31-58 | registration keeps emails and ids unique across the user store |
| Users.RegisterTwiceFails | routes/api/users.js:31-38 | a second registration with the same email and a valid password fails with 400 "userid(email) already exists" |
| Auth.WithoutPassword | routes/api/auth.js:15 | `select('-password')` keeps the id, name, email and avatar of the account and nothing else |
| Auth.LoginChecks | routes/api/auth.js:26-29 | validation passes exactly for an email `isEmail` accepts and a non-empty password; an invalid email is reported first, an empty password alone gives only its message |
| Auth.CurrentUser | routes/api/auth.js:13-20 | answers the stored account of the requester without its password, or `null` when there is none; never writes |
| Auth.Login | routes/api/auth.js:33-74 | login never writes; it answers 400 with validation messages, or for an unknown email, or for a password the stored hash rejects; it succeeds exactly when the input is valid, the email is stored and the hash accepts the password, and then answers the first account with that email and a token carrying its id |
| Auth.LoginFailuresDistinguishable | routes/api/auth.js:42-56 | the unknown-email and wrong-password answers share status 400 but carry different messages |
| Auth.LoginWithoutHash | routes/api/auth.js:74 | the corrected login succeeds and fails exactly when login does; on success it answers the same token and the user without the password |
| Auth.LoginWithoutHashIsCurrentUser | routes/api/auth.js:15 | with unique ids, the corrected login answer equals what the current-user route answers for the token's id |
| Posts.CreatePost | routes/api/posts.js:14-30 | empty text gives 400 before any lookup; a missing author gives 500; success stores a post by the requester with a snapshot of their name and avatar, no likes and no comments |
| Posts.GetPost | routes/api/posts.js:54-60 | answers the stored post or 400 "post not found"; never writes |
| Posts.DeletePost | routes/api/posts.js:70-85 | a missing post gives 500 and the 400 branch is unreachable; a non-author gets 401 and nothing changes; the author removes exactly that post |
| Posts.DeletePostChecked | routes/api/posts.js:72-78 | with the null check first, a missing post gives 400 "post not found"; otherwise it agrees with the handler as written |
| Posts.DeletedPostIsGone | routes/api/posts.js:56-79 | after the author deletes a post, looking it up answers "post not found" |
| Posts.Like | routes/api/posts.js:91-103 | liking an already-liked post gives 400 with no change; otherwise the requester is prepended, nothing else changes, and a duplicate-free likes list stays duplicate-free |
| Posts.Unlike | routes/api/posts.js:114-127 | unliking a post not liked gives 400 with no change; otherwise the requester's first entry is removed and the rest keep their order |
| Posts.LikeIndexIsMembership | routes/api/posts.js:96-98 | the `indexOf` test on the likers is -1 exactly when the requester has not liked the post |
| Posts.RemoveAtFacts | routes/api/posts.js:125 | removing one entry of a duplicate-free list keeps it duplicate-free and loses exactly that entry |
| Posts.LikeThenUnlike | routes/api/posts.js:101-125 | from a post the user has not liked, like followed by unlike restores the store and answers the original likes |
| Posts.CommentIndexIsMembership | routes/api/posts.js:173-175 | the `find` on `comment.id` fails exactly when no comment carries the id |
| Posts.IdIndex | routes/api/posts.js:182-184 | the `_id` lookup answers -1 under strict equality; compared by value it agrees with `find`: -1 exactly when no comment carries the id, else the first that does |
| Posts.AddComment | routes/api/posts.js:139-157 | empty text gives 400; a missing user or post gives 500; otherwise a snapshot comment is prepended, existing comments and other posts untouched |
| Posts.DeleteComment | routes/api/posts.js:168-188 | a missing post gives 500; an unknown comment gives 400 with no change; a non-author ends in 500 with no change; for the author, a lookup by value removes the first comment with that id and a strict lookup removes the last comment |
| Posts.DeleteCommentChecked | routes/api/posts.js:179-180 | with the typo corrected, a non-author gets 401 "user not authorized" with no change; every other answer matches the handler as written |
| Posts.AddThenDeleteComment | routes/api/posts.js:155-185 | with the lookup by value, a comment added and then deleted by its author leaves the store and the comments as they were |
| Posts.AddThenDeleteCommentStrict | routes/api/posts.js:155-185 | with the strict lookup, deleting the comment just added removes the post's oldest comment instead, and the new one stays |
| Posts.FeedPreservesValid | routes/api/posts.js:96-101 | every feed handler keeps the store invariants, including that no user appears twice among a post's likes |
| Scenarios.RegisterThenLogin | routes/api/auth.js:42-74 | after registration, login with the same email and password succeeds for the new account; the token names it; the answer carries its stored hash |
| Scenarios.ParseGoRust | routes/api/profile.js:67 | the skills text "go,rust" parses to ["go", "rust"] |
| Scenarios.AccountWalkThrough | routes/api/users.js:29-74 | register alice, log in, read the current user without a password, submit a profile with skills "go,rust", and find it by user id with those skills |
| Scenarios.ResubmitWithoutSkillsIsRefused | routes/api/profile.js:34-42 | after a first submission, a second one with a status but no skills is refused with 400 and the stored skills stay |

## Findings

| source | as written | input that shows it | evidently intended | confidence | as-written member | corrected member |
|---|---|---|---|---|---|---|
| routes/api/posts.js:72-78 | `post.user` is read before the `!post` check | DELETE /api/posts/:id for an id with no post: the handler throws and answers 500 | 400 "post not found", the branch written for it | high; not executed | Posts.DeletePost | Posts.DeletePostChecked |
| routes/api/posts.js:180 | `res.status(401).jons(...)` is not a function and throws | DELETE /api/posts/comment/:post/:comment by a user who did not write the comment: answers 500 | 401 "user not authorized" | high; not executed | Posts.DeleteComment | Posts.DeleteCommentChecked |
| routes/api/auth.js:74 | the answer `{ user, token }` sends the stored document, password hash included | log in with correct credentials: the answer carries the bcrypt hash | the user without the password, as `GET /api/auth` sends with `select('-password')` | medium; not executed | Scenarios.RegisterThenLogin | Auth.LoginWithoutHash |

## Left out

- Token middleware, models, experience and education routes: these files are not part of this model. Handlers receive the resolved user id.
- `GET /api/posts` and `GET /api/profile/all`: pure reads. The date sort and `populate` of user names are not modelled.
- `populate('user', ['name', 'avatar'])` on the profile lookups: the model answers the stored profile without joining the user.
- Failures of the database itself (connection errors, malformed ObjectIds raising CastError) answer 500 in every handler. Ids here are abstract, so these paths are not modelled.
- Un-awaited `save()` calls (routes/api/posts.js:156, routes/api/users.js:58) are treated as completed writes.
- Concurrent read-modify-write races on one document, and console logging.
- The JSON envelope of error bodies is not modelled, only the status and message texts. The envelope is `{ errors: [...] }`, the misspelt `{ erros: [...] }`, or `{ msg }`.
- Creation timestamps (`date`) of users, posts and comments.
- Library internals: bcrypt, JWT signing and verification, gravatar URL construction, and the `isEmail` grammar are uninterpreted.
- Users.Register: proves the stored password is `hash(password, salt)`. It does not prove that this differs from the plaintext, because nothing is assumed about bcrypt beyond `Library.Sound`.
- Users.MeasuredLength: follows the validator.js releases whose `isLength` skips U+FE0E and U+FE0F; older releases count those selectors like any other code point.
- Profiles.BuildFields: request values are strings in every handler (profile form, `RegisterRequest`, `LoginRequest`, post and comment `text`). Non-string JSON values (numbers, arrays, objects), their truthiness, and the failures they cause are not modelled. For example, a numeric `password` passes `not().isEmpty()`, then `bcrypt.compare` rejects it and the catch answers 500.
- The client action creators and React components are view and dispatch glue.

=== FILE: auth.dfy ===
/** Login, `POST /api/auth`, and the current-user lookup, `GET /api/auth`
    (routes/api/auth.js). The token middleware is not part of this model:
    the handlers receive the user id it resolved. */
module Auth {
  import opened Outcomes
  import opened Store
  import opened Library

  /** A user document read with `.select('-password')`. */
  datatype PublicUser = PublicUser(id: UserId, name: string, email: string, avatar: string)

  datatype LoginRequest = LoginRequest(email: string, password: string)

  /** The login answer `{ user, token }`, user as fetched from the store. */
  datatype LoginReply = LoginReply(user: User, token: Token)

  /** The login answer with the password field left out of the user. */
  datatype PublicLoginReply = PublicLoginReply(user: PublicUser, token: Token)

  const UnknownEmail := "userid(email) does not  exists"
  const WrongPassword := "incorrect credentials"

  function WithoutPassword(u: User): (p: PublicUser)
    ensures p.id == u.id && p.name == u.name && p.email == u.email && p.avatar == u.avatar
  {
    PublicUser(u.id, u.name, u.email, u.avatar)
  }

  /** The current-user handler. A vanished account is answered with a JSON
      `null` and status 200, here `Ok(None)`. */
  function CurrentUser(db: Db, id: UserId): (r: Response<Option<PublicUser>>)
    ensures r.db == db && r.result.Ok?
    ensures r.result.value.Some? <==> exists i :: 0 <= i < |db.users| && db.users[i].id == id
    ensures r.result.value.Some? ==>
      exists u :: u in db.users && u.id == id && r.result.value.value == WithoutPassword(u)
  {
    match FindUser(db.users, id)
    case None => Response(db, Ok(None))
    case Some(u) => Response(db, Ok(Some(WithoutPassword(u))))
  }

  /** The two declared checks, in declaration order. */
  function LoginChecks(lib: Lib, req: LoginRequest): (checks: seq<Check>)
    ensures ValidationErrors(checks) == [] <==> lib.isEmail(req.email) && req.password != ""
    ensures !lib.isEmail(req.email) ==> ValidationErrors(checks)[0] == InvalidEmail
    ensures lib.isEmail(req.email) && req.password == "" ==> ValidationErrors(checks) == [InvalidPassword]
  {
    var checks := [ Check(lib.isEmail(req.email), InvalidEmail),
                    Check(req.password != "", InvalidPassword) ];
    ValidationErrorsOfPair(checks[0], checks[1]);
    checks
  }

  /** The login handler, as written: its answer includes the stored password hash. */
  function Login(db: Db, lib: Lib, req: LoginRequest): (r: Response<LoginReply>)
    // login never writes
    ensures r.db == db
    ensures ValidationErrors(LoginChecks(lib, req)) != [] ==>
      r.result == Fail(BadRequest, ValidationErrors(LoginChecks(lib, req)))
    ensures ValidationErrors(LoginChecks(lib, req)) == [] && FindByEmail(db.users, req.email).None? ==>
      r.result == Fail(BadRequest, [UnknownEmail])
    ensures ValidationErrors(LoginChecks(lib, req)) == [] && FindByEmail(db.users, req.email).Some? &&
            !lib.compare(req.password, FindByEmail(db.users, req.email).value.password) ==>
      r.result == Fail(BadRequest, [WrongPassword])
    // success exactly when the input is well formed and the stored hash accepts the password
    ensures r.result.Ok? <==>
      && ValidationErrors(LoginChecks(lib, req)) == []
      && FindByEmail(db.users, req.email).Some?
      && lib.compare(req.password, FindByEmail(db.users, req.email).value.password)
    ensures r.result.Ok? ==> r.result.value.user == FindByEmail(db.users, req.email).value
    ensures r.result.Ok? ==>
      && lib.isEmail(req.email) && req.password != ""
      && r.result.value.user in db.users
      && r.result.value.user.email == req.email
      && lib.compare(req.password, r.result.value.user.password)
      && r.result.value.token.payload.userId == r.result.value.user.id
  {
    var checks := LoginChecks(lib, req);
    var errors := ValidationErrors(checks);
    if errors != [] then Response(db, Fail(BadRequest, errors))
    else match FindByEmail(db.users, req.email)
      case None => Response(db, Fail(BadRequest, [UnknownEmail]))
      case Some(u) =>
        if !lib.compare(req.password, u.password) then Response(db, Fail(BadRequest, [WrongPassword]))
        else
          assert checks[0].passes && checks[1].passes;
          Response(db, Ok(LoginReply(u, IssueToken(u.id))))
  }

  /** The two login failures after validation are told apart by their messages. */
  lemma LoginFailuresDistinguishable(db: Db, lib: Lib, unknown: LoginRequest, wrong: LoginRequest)
    requires ValidationErrors(LoginChecks(lib, unknown)) == []
    requires ValidationErrors(LoginChecks(lib, wrong)) == []
    requires FindByEmail(db.users, unknown.email).None?
    requires FindByEmail(db.users, wrong.email).Some?
    requires !lib.compare(wrong.password, FindByEmail(db.users, wrong.email).value.password)
    ensures Login(db, lib, unknown).result.Fail? && Login(db, lib, wrong).result.Fail?
    ensures Login(db, lib, unknown).result.status == Login(db, lib, wrong).result.status == BadRequest
    ensures Login(db, lib, unknown).result.messages != Login(db, lib, wrong).result.messages
  {
  }

  /** Login with the password hash stripped from the answered user, as the
      current-user handler does. */
  function LoginWithoutHash(db: Db, lib: Lib, req: LoginRequest): (r: Response<PublicLoginReply>)
    ensures r.db == db
    ensures r.result.Ok? <==> Login(db, lib, req).result.Ok?
    ensures r.result.Fail? ==>
      && r.result.status == Login(db, lib, req).result.status
      && r.result.messages == Login(db, lib, req).result.messages
    ensures r.result.Ok? ==>
      && r.result.value.token == Login(db, lib, req).result.value.token
      && r.result.value.user == WithoutPassword(Login(db, lib, req).result.value.user)
  {
    match Login(db, lib, req).result
    case Fail(status, messages) => Response(db, Fail(status, messages))
    case Ok(reply) => Response(db, Ok(PublicLoginReply(WithoutPassword(reply.user), reply.token)))
  }

  /** With unique ids, the hash-free login answer is exactly what the
      current-user handler answers for the token's user id. */
  lemma LoginWithoutHashIsCurrentUser(db: Db, lib: Lib, req: LoginRequest)
    requires Valid(db)
    requires LoginWithoutHash(db, lib, req).result.Ok?
    ensures var reply := LoginWithoutHash(db, lib, req).result.value;
      CurrentUser(db, reply.token.payload.userId).result == Ok(Some(reply.user))
  {
    var u := Login(db, lib, req).result.value.user;
    var v := FindUser(db.users, u.id).value;
    var i :| 0 <= i < |db.users| && db.users[i] == u;
    var j :| 0 <= j < |db.users| && db.users[j] == v;
    assert i == j;
  }
}

=== FILE: jstext.dfy ===
/** The JavaScript string operations the profile handler relies on:
    truthiness of a request value, `String.prototype.split` on a one-character
    separator, and `String.prototype.trim`. */
module JsText {

  /** A request-body string is truthy in JavaScript unless it is empty; a
      field absent from the body is modelled as "" and is falsy too. */
  predicate Truthy(s: string) {
    s != ""
  }

  /** The code points `trim` removes: the WhiteSpace and LineTerminator
      productions of ECMA-262 (tab, vertical tab, form feed, space, no-break
      space, byte order mark, the Space_Separator category, line feed,
      carriage return, line and paragraph separators). */
  predicate IsJsSpace(c: char) {
    || c == '\t' || c == '\n' || c == '\U{000B}' || c == '\U{000C}' || c == '\r'
    || c == ' ' || c == '\U{00A0}' || c == '\U{1680}'
    || ('\U{2000}' <= c <= '\U{200A}')
    || c == '\U{2028}' || c == '\U{2029}' || c == '\U{202F}' || c == '\U{205F}'
    || c == '\U{3000}' || c == '\U{FEFF}'
  }

  predicate AllSpace(s: string) {
    forall k :: 0 <= k < |s| ==> IsJsSpace(s[k])
  }

  /** True when `s` neither starts nor ends with a space character. */
  predicate Trimmed(s: string) {
    s == "" || (!IsJsSpace(s[0]) && !IsJsSpace(s[|s| - 1]))
  }

  /** Number of occurrences of `c` in `s`. */
  function Count(s: string, c: char): nat
  {
    if s == "" then 0 else (if s[0] == c then 1 else 0) + Count(s[1..], c)
  }

  /** `s.split(sep)`: the maximal separator-free pieces of `s`, one more than
      there are separators, empty pieces included (so "" gives [""]). */
  function Split(s: string, sep: char): (parts: seq<string>)
    ensures |parts| == Count(s, sep) + 1
    ensures forall i :: 0 <= i < |parts| ==> sep !in parts[i]
    decreases |s|
  {
    if s == "" then [""]
    else
      var rest := Split(s[1..], sep);
      if s[0] == sep then [""] + rest
      else [[s[0]] + rest[0]] + rest[1..]
  }

  /** `parts.join(sep)`, the inverse of `Split`. */
  function Join(parts: seq<string>, sep: char): string
    requires |parts| > 0
  {
    if |parts| == 1 then parts[0] else parts[0] + [sep] + Join(parts[1..], sep)
  }

  /** Joining the pieces of a split gives the original string back. */
  lemma {:induction false} JoinSplit(s: string, sep: char)
    ensures Join(Split(s, sep), sep) == s
    decreases |s|
  {
    if s != "" {
      var rest := Split(s[1..], sep);
      JoinSplit(s[1..], sep);
      if s[0] == sep {
        assert Split(s, sep) == [""] + rest;
        assert ([""] + rest)[1..] == rest;
        assert Join(Split(s, sep), sep) == "" + [sep] + Join(rest, sep);
        assert s == [s[0]] + s[1..];
      } else if |rest| == 1 {
        assert Split(s, sep) == [[s[0]] + rest[0]];
        assert s == [s[0]] + s[1..];
      } else {
        var parts := Split(s, sep);
        assert parts == [[s[0]] + rest[0]] + rest[1..];
        assert parts[1..] == rest[1..];
        assert Join(rest, sep) == rest[0] + [sep] + Join(rest[1..], sep);
        assert Join(parts, sep) == [s[0]] + rest[0] + [sep] + Join(rest[1..], sep);
        assert s == [s[0]] + s[1..];
      }
    }
  }

  /** A separator-free piece followed by a separator splits off as one piece. */
  lemma {:induction false} SplitPiece(p: string, sep: char, t: string)
    requires sep !in p
    ensures Split(p + [sep] + t, sep) == [p] + Split(t, sep)
    decreases |p|
  {
    if p == "" {
      assert p + [sep] + t == [sep] + t;
      assert ([sep] + t)[1..] == t;
    } else {
      var s := p + [sep] + t;
      assert s[0] == p[0];
      assert s[1..] == p[1..] + [sep] + t;
      assert sep !in p[1..];
      SplitPiece(p[1..], sep, t);
      assert [p[0]] + p[1..] == p;
    }
  }

  /** A separator-free string is a single piece. */
  lemma {:induction false} SplitNoSeparator(p: string, sep: char)
    requires sep !in p
    ensures Split(p, sep) == [p]
    decreases |p|
  {
    if p != "" {
      assert sep !in p[1..];
      SplitNoSeparator(p[1..], sep);
      assert [p[0]] + p[1..] == p;
    }
  }

  /** Splitting a join of separator-free pieces gives the pieces back. */
  lemma {:induction false} SplitJoin(parts: seq<string>, sep: char)
    requires |parts| > 0
    requires forall i :: 0 <= i < |parts| ==> sep !in parts[i]
    ensures Split(Join(parts, sep), sep) == parts
    decreases |parts|
  {
    if |parts| == 1 {
      SplitNoSeparator(parts[0], sep);
    } else {
      SplitJoin(parts[1..], sep);
      SplitPiece(parts[0], sep, Join(parts[1..], sep));
      assert [parts[0]] + parts[1..] == parts;
    }
  }

  /** Length of the run of space characters that starts `s`. */
  function LeadingSpaces(s: string): (n: nat)
    ensures n <= |s|
    ensures AllSpace(s[..n])
    ensures n == |s| || !IsJsSpace(s[n])
  {
    if s == "" || !IsJsSpace(s[0]) then 0 else 1 + LeadingSpaces(s[1..])
  }

  /** Length of the run of space characters that ends `s`. */
  function TrailingSpaces(s: string): (n: nat)
    ensures n <= |s|
    ensures AllSpace(s[|s| - n..])
    ensures n == |s| || !IsJsSpace(s[|s| - n - 1])
  {
    if s == "" || !IsJsSpace(s[|s| - 1]) then 0 else 1 + TrailingSpaces(s[..|s| - 1])
  }

  /** `s.trim()`: `s` without its leading and trailing space characters. */
  function Trim(s: string): (r: string)
    ensures Trimmed(r)
    ensures |r| <= |s|
    ensures LeadingSpaces(s) + |r| <= |s|
    ensures r == s[LeadingSpaces(s)..LeadingSpaces(s) + |r|]
    ensures AllSpace(s[LeadingSpaces(s) + |r|..])
  {
    var t := s[LeadingSpaces(s)..];
    var r := t[..|t| - TrailingSpaces(t)];
    assert r == "" || r[0] == t[0];
    assert s[LeadingSpaces(s) + |r|..] == t[|t| - TrailingSpaces(t)..];
    r
  }

  /** Leading spaces are counted up to the first non-space character. */
  lemma {:induction false} LeadingSpacesOfPadded(a: string, x: string)
    requires AllSpace(a)
    requires x == "" || !IsJsSpace(x[0])
    ensures LeadingSpaces(a + x) == |a|
    decreases |a|
  {
    if a != "" {
      assert (a + x)[1..] == a[1..] + x;
      LeadingSpacesOfPadded(a[1..], x);
    } else {
      assert a + x == x;
    }
  }

  lemma {:induction false} TrailingSpacesOfPadded(x: string, b: string)
    requires AllSpace(b)
    requires x == "" || !IsJsSpace(x[|x| - 1])
    ensures TrailingSpaces(x + b) == |b|
    decreases |b|
  {
    if b != "" {
      assert (x + b)[..|x + b| - 1] == x + b[..|b| - 1];
      TrailingSpacesOfPadded(x, b[..|b| - 1]);
    } else {
      assert x + b == x;
    }
  }

  /** `trim` is characterised independently of its definition: a trimmed
      core padded on both sides with spaces trims to that core. */
  lemma TrimPadded(a: string, t: string, b: string)
    requires AllSpace(a) && AllSpace(b) && Trimmed(t)
    ensures Trim(a + t + b) == t
  {
    var s := a + t + b;
    if t == "" {
      assert AllSpace(s) by {
        forall k | 0 <= k < |s| ensures IsJsSpace(s[k]) {
          if k < |a| { assert s[k] == a[k]; } else { assert s[k] == b[k - |a|]; }
        }
      }
      LeadingSpacesOfPadded(s, "");
      assert s + "" == s;
    } else {
      assert s == a + (t + b);
      LeadingSpacesOfPadded(a, t + b);
      assert s[|a|..] == t + b;
      TrailingSpacesOfPadded(t, b);
    }
  }

  /** Trimming twice is trimming once. */
  lemma TrimIdempotent(s: string)
    ensures Trim(Trim(s)) == Trim(s)
  {
    var r := Trim(s);
    assert "" + r + "" == r;
    TrimPadded("", r, "");
  }
}

=== FILE: library.dfy ===
/** The foreign libraries the account handlers call, left uninterpreted.

    bcrypt, gravatar and express-validator's `isEmail` are supplied as
    function values; the only fact assumed about them is that bcrypt's
    `compare` accepts a password against any hash of that same password.
    A JSON Web Token is represented by the claims it signs and its expiry;
    the signature itself is not modelled. */
module Library {
  import opened Store

  datatype Lib = Lib(
    isEmail: string -> bool,            // express-validator's isEmail()
    hash: (string, string) -> string,   // bcrypt.hash(password, salt)
    compare: (string, string) -> bool,  // bcrypt.compare(password, hash)
    gravatar: string -> string)         // gravatar.url(email, {s: '200', r: 'pg', d: 'mm'})

  /** bcrypt's one promise: a password matches its own salted hash. */
  ghost predicate Sound(lib: Lib) {
    forall password, salt :: lib.compare(password, lib.hash(password, salt))
  }

  /** The token lifetime passed as `expiresIn`, in seconds (1000 hours). */
  const TokenExpirySeconds: nat := 3600000

  /** The claims `{ user: { id } }` a token carries. */
  datatype Payload = Payload(userId: UserId)

  datatype Token = Token(payload: Payload, expiresIn: nat)

  /** `jwt.sign({ user: { id } }, secret, { expiresIn: 3600000 })`. */
  function IssueToken(id: UserId): (t: Token)
    ensures t.payload.userId == id
    ensures t.expiresIn == 1000 * 60 * 60
  {
    Token(Payload(id), TokenExpirySeconds)
  }
}

=== FILE: outcomes.dfy ===
/** Answers of the backend's route handlers.

    A handler either answers with a JSON value (status 200) or rejects the
    request with an HTTP status and the messages of its error body. The
    validation checks the routes declare with express-validator are collected
    here as a list of `Check`s, evaluated all at once, as the library does. */
module Outcomes {

  datatype Option<+T> = None | Some(value: T)

  /** The validation messages that registration and login share. */
  const InvalidEmail := "please enter valid email"
  const InvalidPassword := "Please enter valid password"

  /** The status codes the handlers send. */
  const BadRequest: nat := 400
  const Unauthorized: nat := 401
  const ServerError: nat := 500

  /** `Ok` is a 200 answer carrying the JSON value; `Fail` is a rejection. */
  datatype Result<+T> = Ok(value: T) | Fail(status: nat, messages: seq<string>)

  /** One declared validation rule: whether the request meets it and the
      message reported when it does not. */
  datatype Check = Check(passes: bool, msg: string)

  /** The `errors.array()` messages of `validationResult(req)`: the message of
      every failing check, in declaration order. */
  function ValidationErrors(checks: seq<Check>): (msgs: seq<string>)
    ensures msgs == [] <==> forall i :: 0 <= i < |checks| ==> checks[i].passes
    ensures |msgs| <= |checks|
    // every message comes from a failing check, and every failing check reports its message
    ensures forall m :: m in msgs ==> exists i :: 0 <= i < |checks| && !checks[i].passes && checks[i].msg == m
    ensures forall i :: 0 <= i < |checks| && !checks[i].passes ==> checks[i].msg in msgs
  {
    if checks == [] then []
    else
      var tail := checks[1..];
      var rest := ValidationErrors(tail);
      assert forall i :: 1 <= i < |checks| ==> checks[i] == tail[i - 1];
      if checks[0].passes then rest else [checks[0].msg] + rest
  }

  /** Declaration order is kept: the messages of two consecutive groups of
      checks are the messages of the first group followed by those of the
      second. With the one-check case this fixes the list completely. */
  lemma {:induction false} ValidationErrorsAppend(a: seq<Check>, b: seq<Check>)
    ensures ValidationErrors(a + b) == ValidationErrors(a) + ValidationErrors(b)
    decreases |a|
  {
    if a != [] {
      assert (a + b)[1..] == a[1..] + b;
      ValidationErrorsAppend(a[1..], b);
    } else {
      assert a + b == b;
    }
  }

  /** What one check contributes to the answer: its message when it fails. */
  function Reported(c: Check): seq<string> {
    if c.passes then [] else [c.msg]
  }

  /** A single check reports its message exactly when it fails. */
  lemma ValidationErrorsSingle(c: Check)
    ensures ValidationErrors([c]) == Reported(c)
  {
    assert [c][1..] == [];
  }

  /** Two declared checks answer the first one's message, then the second's. */
  lemma ValidationErrorsOfPair(c0: Check, c1: Check)
    ensures ValidationErrors([c0, c1]) == Reported(c0) + Reported(c1)
  {
    assert [c0, c1] == [c0] + [c1];
    ValidationErrorsAppend([c0], [c1]);
    ValidationErrorsSingle(c0);
    ValidationErrorsSingle(c1);
  }

  /** Three declared checks answer their messages in declaration order. */
  lemma ValidationErrorsOfTriple(c0: Check, c1: Check, c2: Check)
    ensures ValidationErrors([c0, c1, c2]) == Reported(c0) + Reported(c1) + Reported(c2)
  {
    assert [c0, c1, c2] == [c0] + [c1, c2];
    ValidationErrorsAppend([c0], [c1, c2]);
    ValidationErrorsSingle(c0);
    ValidationErrorsOfPair(c1, c2);
  }
}

=== FILE: posts.dfy ===
/** The feed handlers of routes/api/posts.js. The handlers receive the user
    id the token middleware resolved. A handler that dereferences a post or
    user the store does not hold throws a TypeError, which its catch block
    answers with 500 "server error". */
module Posts {
  import opened Outcomes
  import opened Store

  const TextRequired := "text is required"
  const ServerErrorMsg := "server error"
  const PostNotFound := "post not found"
  const NotAuthorized := "user not authorized"
  const PostRemoved := "post removed"
  const AlreadyLiked := "post already liked"
  const NotLiked := "post not liked"
  const NoSuchComment := "no such comment"

  function LikeKey(u: UserId): UserId { u }

  /** `POST /api/posts`: `postId` is the ObjectId the new post receives. */
  function CreatePost(db: Db, id: UserId, text: string, postId: PostId): (r: Response<Post>)
    requires postId !in db.posts
    // empty text is refused before the store is consulted
    ensures text == "" ==> r == Response(db, Fail(BadRequest, [TextRequired]))
    ensures text != "" && FindUser(db.users, id).None? ==> r == Response(db, Fail(ServerError, [ServerErrorMsg]))
    ensures r.result.Fail? ==> r.db == db
    ensures r.result.Ok? <==> text != "" && FindUser(db.users, id).Some?
    // the new post: the requester as author, a snapshot of the requester's name and avatar
    ensures r.result.Ok? ==>
      var p := r.result.value;
      && p.id == postId && p.user == id && p.text == text
      && (exists u :: u in db.users && u.id == id && p.name == u.name && p.avatar == u.avatar)
      && p.likes == [] && p.comments == []
      && r.db == db.(posts := db.posts[postId := p])
  {
    if text == "" then Response(db, Fail(BadRequest, [TextRequired]))
    else match FindUser(db.users, id)
      case None => Response(db, Fail(ServerError, [ServerErrorMsg]))
      case Some(u) =>
        var p := Post(postId, id, text, u.name, u.avatar, [], []);
        Response(db.(posts := db.posts[postId := p]), Ok(p))
  }

  /** `GET /api/posts/:post_id`. */
  function GetPost(db: Db, postId: PostId): (r: Response<Post>)
    ensures r.db == db
    ensures postId in db.posts ==> r.result == Ok(db.posts[postId])
    ensures postId !in db.posts ==> r.result == Fail(BadRequest, [PostNotFound])
  {
    if postId in db.posts then Response(db, Ok(db.posts[postId]))
    else Response(db, Fail(BadRequest, [PostNotFound]))
  }

  /** `DELETE /api/posts/:post_id`, as written: the author is compared before
      the null check, so a missing post throws and answers 500, and the
      "post not found" branch cannot be reached. */
  function DeletePost(db: Db, id: UserId, postId: PostId): (r: Response<string>)
    ensures postId !in db.posts ==> r == Response(db, Fail(ServerError, [ServerErrorMsg]))
    ensures postId in db.posts && db.posts[postId].user != id ==>
      r == Response(db, Fail(Unauthorized, [NotAuthorized]))
    ensures r.result.Ok? <==> postId in db.posts && db.posts[postId].user == id
    ensures r.result.Ok? ==> r.result.value == PostRemoved && r.db == db.(posts := db.posts - {postId})
    ensures r.result != Fail(BadRequest, [PostNotFound])
  {
    if postId !in db.posts then Response(db, Fail(ServerError, [ServerErrorMsg]))
    else if db.posts[postId].user != id then Response(db, Fail(Unauthorized, [NotAuthorized]))
    else Response(db.(posts := db.posts - {postId}), Ok(PostRemoved))
  }

  /** The post deletion with the null check first: a missing post is
      answered 400 "post not found"; on every stored post it agrees with the
      handler as written. */
  function DeletePostChecked(db: Db, id: UserId, postId: PostId): (r: Response<string>)
    ensures postId !in db.posts ==> r == Response(db, Fail(BadRequest, [PostNotFound]))
    ensures postId in db.posts ==> r == DeletePost(db, id, postId)
    ensures r.result.Ok? ==> postId !in r.db.posts && GetPost(r.db, postId).result == Fail(BadRequest, [PostNotFound])
  {
    if postId !in db.posts then Response(db, Fail(BadRequest, [PostNotFound]))
    else DeletePost(db, id, postId)
  }

  /** `PUT /api/posts/like/:post_id`: answers the new likes. */
  function Like(db: Db, id: UserId, postId: PostId): (r: Response<seq<UserId>>)
    ensures postId !in db.posts ==> r == Response(db, Fail(ServerError, [ServerErrorMsg]))
    // liking twice is refused and changes nothing
    ensures postId in db.posts && id in db.posts[postId].likes ==>
      r == Response(db, Fail(BadRequest, [AlreadyLiked]))
    ensures r.result.Ok? <==> postId in db.posts && id !in db.posts[postId].likes
    // otherwise the requester is put first and nothing else changes
    ensures r.result.Ok? ==>
      var p := db.posts[postId];
      && r.result.value == [id] + p.likes
      && r.db == db.(posts := db.posts[postId := p.(likes := r.result.value)])
    ensures r.result.Ok? && NoDuplicates(db.posts[postId].likes) ==> NoDuplicates(r.result.value)
  {
    if postId !in db.posts then Response(db, Fail(ServerError, [ServerErrorMsg]))
    else
      var p := db.posts[postId];
      LikeIndexIsMembership(p.likes, id);
      if FirstIndex(p.likes, LikeKey, id) != -1 then Response(db, Fail(BadRequest, [AlreadyLiked]))
      else
        var likes := [id] + p.likes;
        Response(db.(posts := db.posts[postId := p.(likes := likes)]), Ok(likes))
  }

  /** `PUT /api/posts/unlike/:post_id`: answers the new likes. */
  function Unlike(db: Db, id: UserId, postId: PostId): (r: Response<seq<UserId>>)
    ensures postId !in db.posts ==> r == Response(db, Fail(ServerError, [ServerErrorMsg]))
    // unliking a post one does not like is refused and changes nothing
    ensures postId in db.posts && id !in db.posts[postId].likes ==>
      r == Response(db, Fail(BadRequest, [NotLiked]))
    ensures r.result.Ok? <==> postId in db.posts && id in db.posts[postId].likes
    // otherwise the requester's entry goes and the others keep their order
    ensures r.result.Ok? ==>
      var p := db.posts[postId];
      && (exists i :: 0 <= i < |p.likes| && p.likes[i] == id && id !in p.likes[..i] &&
            r.result.value == p.likes[..i] + p.likes[i + 1..])
      && r.db == db.(posts := db.posts[postId := p.(likes := r.result.value)])
    ensures r.result.Ok? && NoDuplicates(db.posts[postId].likes) ==>
      id !in r.result.value && NoDuplicates(r.result.value) &&
      forall u :: u in r.result.value <==> u in db.posts[postId].likes && u != id
  {
    if postId !in db.posts then Response(db, Fail(ServerError, [ServerErrorMsg]))
    else
      var p := db.posts[postId];
      var i := FirstIndex(p.likes, LikeKey, id);
      LikeIndexIsMembership(p.likes, id);
      if i == -1 then
        Response(db, Fail(BadRequest, [NotLiked]))
      else
        var likes := SpliceOne(p.likes, i);
        assert LikeKey(p.likes[i]) == id;
        assert id !in p.likes[..i] by {
          forall j | 0 <= j < i ensures p.likes[..i][j] != id {
            assert LikeKey(p.likes[j]) != id;
          }
        }
        RemoveAtFacts(p.likes, i);
        Response(db.(posts := db.posts[postId := p.(likes := likes)]), Ok(likes))
  }

  /** Removing the entry at `i` from a duplicate-free sequence keeps it
      duplicate-free and loses exactly that element. */
  lemma RemoveAtFacts(s: seq<UserId>, i: nat)
    requires i < |s|
    ensures NoDuplicates(s) ==> NoDuplicates(s[..i] + s[i + 1..])
    ensures NoDuplicates(s) ==> s[i] !in s[..i] + s[i + 1..]
    ensures forall u :: u in s && u != s[i] ==> u in s[..i] + s[i + 1..]
    ensures forall u :: u in s[..i] + s[i + 1..] ==> u in s
  {
    var r := s[..i] + s[i + 1..];
    assert forall j :: 0 <= j < |r| ==> r[j] == s[if j < i then j else j + 1];
    if NoDuplicates(s) {
      forall a, b | 0 <= a < b < |r| ensures r[a] != r[b] {
        var a', b' := if a < i then a else a + 1, if b < i then b else b + 1;
        assert r[a] == s[a'] && r[b] == s[b'];
      }
    }
    forall u | u in s && u != s[i] ensures u in r {
      var k :| 0 <= k < |s| && s[k] == u;
      if k < i { assert r[k] == u; } else { assert r[k - 1] == u; }
    }
  }

  /** `likes.indexOf(id)` is -1 exactly when `id` does not like the post. */
  lemma LikeIndexIsMembership(likes: seq<UserId>, id: UserId)
    ensures FirstIndex(likes, LikeKey, id) == -1 <==> id !in likes
  {
    if id in likes {
      var k :| 0 <= k < |likes| && likes[k] == id;
      assert LikeKey(likes[k]) == id;
    }
  }

  /** True when the comment list holds a comment with this id. */
  predicate HasComment(comments: seq<Comment>, commentId: CommentId) {
    exists k :: 0 <= k < |comments| && comments[k].id == commentId
  }

  /** `post.comments.find((c) => c.id == comment_id)` compares the string
      form of each comment's id with the one in the URL, so it locates the
      first comment carrying that id, and fails exactly when there is none. */
  lemma CommentIndexIsMembership(comments: seq<Comment>, commentId: CommentId)
    ensures FirstIndex(comments, CommentKey, commentId) == -1 <==> !HasComment(comments, commentId)
  {
    if HasComment(comments, commentId) {
      var k :| 0 <= k < |comments| && comments[k].id == commentId;
      assert CommentKey(comments[k]) == commentId;
    }
  }

  /** How `comments.map((item) => item._id).indexOf(comment_id)` compares
      the `_id` ObjectIds with the URL's comment id, a string. It depends on
      the array class the database driver hands out, which is not part of
      this model. `Strict` is `Array.prototype.indexOf`: `===` never holds
      between an ObjectId and a string. `ByValue` is an array whose `indexOf`
      compares an ObjectId by its hexadecimal text. */
  datatype IdLookup = Strict | ByValue

  /** The index the `_id` lookup answers. */
  function IdIndex(comments: seq<Comment>, commentId: CommentId, lookup: IdLookup): (ind: int)
    ensures -1 <= ind < |comments|
    // strict equality finds nothing
    ensures lookup == Strict ==> ind == -1
    // comparison by value agrees with the `find`
    ensures lookup == ByValue ==> (ind == -1 <==> !HasComment(comments, commentId))
    ensures lookup == ByValue && 0 <= ind ==>
      comments[ind].id == commentId && forall j :: 0 <= j < ind ==> comments[j].id != commentId
  {
    match lookup
    case Strict => -1
    case ByValue =>
      CommentIndexIsMembership(comments, commentId);
      FirstIndex(comments, CommentKey, commentId)
  }

  /** `PUT /api/posts/comment/:post_id`: answers the new comments.
      `commentId` is the ObjectId the new sub-document receives. */
  function AddComment(db: Db, id: UserId, postId: PostId, text: string, commentId: CommentId): (r: Response<seq<Comment>>)
    requires postId in db.posts ==> !HasComment(db.posts[postId].comments, commentId)
    ensures text == "" ==> r == Response(db, Fail(BadRequest, [TextRequired]))
    ensures text != "" && (FindUser(db.users, id).None? || postId !in db.posts) ==>
      r == Response(db, Fail(ServerError, [ServerErrorMsg]))
    ensures r.result.Ok? <==> text != "" && FindUser(db.users, id).Some? && postId in db.posts
    // a snapshot comment goes first; the existing comments and everything else are untouched
    ensures r.result.Ok? ==>
      var p := db.posts[postId];
      && (exists u :: u in db.users && u.id == id &&
            r.result.value == [Comment(commentId, id, text, u.name, u.avatar)] + p.comments)
      && r.db == db.(posts := db.posts[postId := p.(comments := r.result.value)])
  {
    if text == "" then Response(db, Fail(BadRequest, [TextRequired]))
    else match FindUser(db.users, id)
      case None => Response(db, Fail(ServerError, [ServerErrorMsg]))
      case Some(u) =>
        if postId !in db.posts then Response(db, Fail(ServerError, [ServerErrorMsg]))
        else
          var p := db.posts[postId];
          var comments := [Comment(commentId, id, text, u.name, u.avatar)] + p.comments;
          Response(db.(posts := db.posts[postId := p.(comments := comments)]), Ok(comments))
  }

  /** `DELETE /api/posts/comment/:post_id/:comment_id`, as written: the
      misspelt `.jons` makes the non-author answer throw, so it ends as 500.
      The author's deletion splices at the index of the `_id` lookup; when
      that lookup answers -1, `splice(-1, 1)` drops the last comment. */
  function DeleteComment(db: Db, id: UserId, postId: PostId, commentId: CommentId, lookup: IdLookup)
    : (r: Response<seq<Comment>>)
    ensures postId !in db.posts ==> r == Response(db, Fail(ServerError, [ServerErrorMsg]))
    ensures postId in db.posts && !HasComment(db.posts[postId].comments, commentId) ==>
      r == Response(db, Fail(BadRequest, [NoSuchComment]))
    ensures r.result.Fail? ==> r.db == db
    ensures r.result.Ok? ==>
      r.db == db.(posts := db.posts[postId := db.posts[postId].(comments := r.result.value)])
    ensures postId in db.posts && HasComment(db.posts[postId].comments, commentId) ==>
      var cs := db.posts[postId].comments;
      var i := FirstIndex(cs, CommentKey, commentId);
      && 0 <= i
      && (cs[i].user != id ==> r == Response(db, Fail(ServerError, [ServerErrorMsg])))
      // the author's comment goes when the lookup compares by value ...
      && (cs[i].user == id && lookup == ByValue ==> r.result == Ok(cs[..i] + cs[i + 1..]))
      // ... and the last comment goes when it compares strictly
      && (cs[i].user == id && lookup == Strict ==> r.result == Ok(cs[..|cs| - 1]))
    ensures r.result != Fail(Unauthorized, [NotAuthorized])
  {
    if postId !in db.posts then Response(db, Fail(ServerError, [ServerErrorMsg]))
    else
      var p := db.posts[postId];
      CommentIndexIsMembership(p.comments, commentId);
      var found := FirstIndex(p.comments, CommentKey, commentId);
      if found == -1 then Response(db, Fail(BadRequest, [NoSuchComment]))
      else if p.comments[found].user != id then Response(db, Fail(ServerError, [ServerErrorMsg]))
      else
        var ind := IdIndex(p.comments, commentId, lookup);
        var comments := SpliceOne(p.comments, ind);
        SpliceMinusOneDropsLast(p.comments);
        Response(db.(posts := db.posts[postId := p.(comments := comments)]), Ok(comments))
  }

  /** The comment deletion with the typo corrected: a non-author is answered
      401 "user not authorized"; on every other input it agrees with the
      handler as written. */
  function DeleteCommentChecked(db: Db, id: UserId, postId: PostId, commentId: CommentId, lookup: IdLookup)
    : (r: Response<seq<Comment>>)
    ensures postId in db.posts && HasComment(db.posts[postId].comments, commentId) &&
            db.posts[postId].comments[FirstIndex(db.posts[postId].comments, CommentKey, commentId)].user != id ==>
      r == Response(db, Fail(Unauthorized, [NotAuthorized]))
    ensures r.result.Fail? ==> r.db == db
    // every other request is answered exactly as the handler as written answers it
    ensures !(postId in db.posts && HasComment(db.posts[postId].comments, commentId) &&
              db.posts[postId].comments[FirstIndex(db.posts[postId].comments, CommentKey, commentId)].user != id) ==>
      r == DeleteComment(db, id, postId, commentId, lookup)
  {
    var asWritten := DeleteComment(db, id, postId, commentId, lookup);
    if postId in db.posts && HasComment(db.posts[postId].comments, commentId) &&
       db.posts[postId].comments[FirstIndex(db.posts[postId].comments, CommentKey, commentId)].user != id
    then Response(db, Fail(Unauthorized, [NotAuthorized]))
    else asWritten
  }

  /** From a post the user does not like yet, liking and then unliking gives
      back the store and the likes exactly as they were. */
  lemma LikeThenUnlike(db: Db, id: UserId, postId: PostId)
    requires postId in db.posts && id !in db.posts[postId].likes
    ensures Like(db, id, postId).result.Ok?
    ensures Unlike(Like(db, id, postId).db, id, postId) == Response(db, Ok(db.posts[postId].likes))
  {
    var p := db.posts[postId];
    var liked := Like(db, id, postId);
    var likes := [id] + p.likes;
    assert liked.result == Ok(likes);
    var p' := p.(likes := likes);
    assert liked.db == db.(posts := db.posts[postId := p']);
    assert liked.db.posts[postId] == p';
    var unliked := Unlike(liked.db, id, postId);
    assert unliked.result.Ok?;
    var i :| 0 <= i < |likes| && likes[i] == id && id !in likes[..i] &&
             unliked.result.value == likes[..i] + likes[i + 1..];
    assert forall j :: 0 < j <= |likes| ==> likes[..j][0] == id;
    assert i == 0;
    assert unliked.result.value == p.likes;
    assert p'.(likes := p.likes) == p;
    MapRestore(db.posts, postId, p');
    assert liked.db.posts[postId := p] == db.posts;
  }

  /** Overwriting an entry and then writing its old value back restores the map. */
  lemma MapRestore(m: map<PostId, Post>, k: PostId, v: Post)
    requires k in m
    ensures m[k := v][k := m[k]] == m
  {
  }

  /** With a lookup that compares by value, a comment added and then
      deleted by its author leaves the store and the comments as they were. */
  lemma AddThenDeleteComment(db: Db, id: UserId, postId: PostId, text: string, commentId: CommentId)
    requires postId in db.posts && !HasComment(db.posts[postId].comments, commentId)
    requires AddComment(db, id, postId, text, commentId).result.Ok?
    ensures DeleteComment(AddComment(db, id, postId, text, commentId).db, id, postId, commentId, ByValue)
         == Response(db, Ok(db.posts[postId].comments))
  {
    var p := db.posts[postId];
    var added := AddComment(db, id, postId, text, commentId);
    var cs := added.result.value;
    DeleteNewestComment(added.db, id, postId, commentId, ByValue);
    assert cs[..0] + cs[1..] == cs[1..] == p.comments;
    var p' := p.(comments := cs);
    assert added.db.posts[postId] == p';
    assert p'.(comments := p.comments) == p;
    MapRestore(db.posts, postId, p');
  }

  /** With a strict lookup, deleting the comment just added removes the
      oldest comment of the post instead, whenever there was one: the new
      comment stays. */
  lemma AddThenDeleteCommentStrict(db: Db, id: UserId, postId: PostId, text: string, commentId: CommentId)
    requires postId in db.posts && !HasComment(db.posts[postId].comments, commentId)
    requires AddComment(db, id, postId, text, commentId).result.Ok?
    ensures var cs := db.posts[postId].comments;
      var added := AddComment(db, id, postId, text, commentId);
      var deleted := DeleteComment(added.db, id, postId, commentId, Strict);
      && deleted.result.Ok?
      && (cs == [] ==> deleted.result.value == [])
      && (cs != [] ==> deleted.result.value == added.result.value[..1] + cs[..|cs| - 1])
      && (cs != [] ==> HasComment(deleted.result.value, commentId))
  {
    var cs := db.posts[postId].comments;
    var added := AddComment(db, id, postId, text, commentId);
    var all := added.result.value;
    DeleteNewestComment(added.db, id, postId, commentId, Strict);
    assert all == all[..1] + cs;
    if cs != [] {
      var kept := all[..|all| - 1];
      assert kept == all[..1] + cs[..|cs| - 1];
      assert kept[0] == all[0];
    }
  }

  /** The author deleting the comment at the head of a post's comments. */
  lemma DeleteNewestComment(db: Db, id: UserId, postId: PostId, commentId: CommentId, lookup: IdLookup)
    requires postId in db.posts && |db.posts[postId].comments| > 0
    requires db.posts[postId].comments[0].id == commentId && db.posts[postId].comments[0].user == id
    ensures var cs := db.posts[postId].comments;
      var kept := if lookup == ByValue then cs[1..] else cs[..|cs| - 1];
      DeleteComment(db, id, postId, commentId, lookup)
        == Response(db.(posts := db.posts[postId := db.posts[postId].(comments := kept)]), Ok(kept))
  {
    var cs := db.posts[postId].comments;
    assert CommentKey(cs[0]) == commentId;
    assert FirstIndex(cs, CommentKey, commentId) == 0;
    assert HasComment(cs, commentId);
    assert cs[..0] + cs[1..] == cs[1..];
  }

  /** After the author deletes a post, looking it up answers "post not found". */
  lemma DeletedPostIsGone(db: Db, id: UserId, postId: PostId)
    requires postId in db.posts && db.posts[postId].user == id
    ensures GetPost(DeletePost(db, id, postId).db, postId).result == Fail(BadRequest, [PostNotFound])
  {
  }

  /** Every feed handler keeps the store invariants, in particular that no
      user appears twice among a post's likes. */
  lemma FeedPreservesValid(db: Db, id: UserId, postId: PostId, text: string, newPostId: PostId,
                           commentId: CommentId, target: CommentId, lookup: IdLookup)
    requires Valid(db)
    requires newPostId !in db.posts
    requires postId in db.posts ==> !HasComment(db.posts[postId].comments, commentId)
    ensures Valid(CreatePost(db, id, text, newPostId).db)
    ensures Valid(DeletePost(db, id, postId).db)
    ensures Valid(Like(db, id, postId).db)
    ensures Valid(Unlike(db, id, postId).db)
    ensures Valid(AddComment(db, id, postId, text, commentId).db)
    ensures Valid(DeleteComment(db, id, postId, target, lookup).db)
  {
    CreateDeletePreserveValid(db, id, postId, text, newPostId);
    LikesPreserveValid(db, id, postId);
    CommentsPreserveValid(db, id, postId, text, commentId, target, lookup);
  }

  lemma CreateDeletePreserveValid(db: Db, id: UserId, postId: PostId, text: string, newPostId: PostId)
    requires Valid(db) && newPostId !in db.posts
    ensures Valid(CreatePost(db, id, text, newPostId).db)
    ensures Valid(DeletePost(db, id, postId).db)
  {
    var created := CreatePost(db, id, text, newPostId);
    if created.result.Ok? {
      assert NoDuplicates(created.result.value.likes);
      ReplacePostKeepsNewValid(db, created.result.value);
    }
  }

  lemma LikesPreserveValid(db: Db, id: UserId, postId: PostId)
    requires Valid(db)
    ensures Valid(Like(db, id, postId).db)
    ensures Valid(Unlike(db, id, postId).db)
  {
    var liked := Like(db, id, postId);
    if liked.result.Ok? {
      assert NoDuplicates(db.posts[postId].likes);
      ReplacePostKeepsValid(db, db.posts[postId].(likes := liked.result.value));
    }
    var unliked := Unlike(db, id, postId);
    if unliked.result.Ok? {
      assert NoDuplicates(db.posts[postId].likes);
      ReplacePostKeepsValid(db, db.posts[postId].(likes := unliked.result.value));
    }
  }

  lemma CommentsPreserveValid(db: Db, id: UserId, postId: PostId, text: string, commentId: CommentId,
                              target: CommentId, lookup: IdLookup)
    requires Valid(db)
    requires postId in db.posts ==> !HasComment(db.posts[postId].comments, commentId)
    ensures Valid(AddComment(db, id, postId, text, commentId).db)
    ensures Valid(DeleteComment(db, id, postId, target, lookup).db)
  {
    var added := AddComment(db, id, postId, text, commentId);
    if added.result.Ok? {
      ReplacePostKeepsValid(db, db.posts[postId].(comments := added.result.value));
    }
    var deleted := DeleteComment(db, id, postId, target, lookup);
    if deleted.result.Ok? {
      ReplacePostKeepsValid(db, db.posts[postId].(comments := deleted.result.value));
    }
  }

  /** Replacing a stored post by one with the same id and distinct likers
      keeps the invariants. */
  lemma ReplacePostKeepsValid(db: Db, p: Post)
    requires Valid(db) && p.id in db.posts && NoDuplicates(p.likes)
    ensures Valid(db.(posts := db.posts[p.id := p]))
  {
  }

  lemma ReplacePostKeepsNewValid(db: Db, p: Post)
    requires Valid(db) && NoDuplicates(p.likes)
    ensures Valid(db.(posts := db.posts[p.id := p]))
  {
  }
}

=== FILE: profiles.dfy ===
/** The profile handlers of routes/api/profile.js: create-or-update, the two
    lookups, and account deletion. */
module Profiles {
  import opened Outcomes
  import opened JsText
  import opened Store

  /** The request body; an absent field is "". */
  datatype ProfileRequest = ProfileRequest(
    company: string, website: string, location: string, bio: string,
    status: string, githubusername: string, skills: string,
    youtube: string, facebook: string, twitter: string,
    instagram: string, linkedin: string)

  /** The `profileFields` object: the keys it holds are the `Some` fields;
      `user` and `social` are always present. */
  datatype ProfileFields = ProfileFields(
    user: UserId,
    company: Option<string>, website: Option<string>, location: Option<string>,
    bio: Option<string>, status: Option<string>, githubusername: Option<string>,
    skills: Option<seq<string>>, social: Social)

  const StatusRequired := "status required"
  const SkillsRequired := "skills required"
  const NoProfileForUser := "no profile for this user"
  const NoSuchProfile := "not such profile with given id"
  const UserDeleted := "user deleted "

  /** `o` is set exactly when `s` is truthy, and then to `s`. */
  predicate Carries(o: Option<string>, s: string) {
    (o.Some? <==> Truthy(s)) && (o.Some? ==> o.value == s)
  }

  /** `if (x) fields.x = x`. */
  function IfTruthy(s: string): (o: Option<string>)
    ensures Carries(o, s)
  {
    if Truthy(s) then Some(s) else None
  }

  /** `skills.split(',').map((skill) => skill.trim())`. */
  function ParseSkills(s: string): (r: seq<string>)
    ensures |r| == Count(s, ',') + 1
    ensures forall i :: 0 <= i < |r| ==> ',' !in r[i] && Trimmed(r[i])
    ensures forall i :: 0 <= i < |r| ==> r[i] == Trim(Split(s, ',')[i])
  {
    var parts := Split(s, ',');
    seq(|parts|, i requires 0 <= i < |parts| => Trim(parts[i]))
  }

  /** Each skill is the trimmed text between two commas, in input order:
      padding the pieces of a comma-joined list with spaces does not change
      what is parsed. */
  lemma ParseSkillsOfJoin(pieces: seq<string>, skills: seq<string>, pads: seq<(string, string)>)
    requires |pieces| == |skills| == |pads| > 0
    requires forall i :: 0 <= i < |pieces| ==>
      && pieces[i] == pads[i].0 + skills[i] + pads[i].1
      && AllSpace(pads[i].0) && AllSpace(pads[i].1)
      && Trimmed(skills[i]) && ',' !in pieces[i]
    ensures ParseSkills(Join(pieces, ',')) == skills
  {
    SplitJoin(pieces, ',');
    forall i | 0 <= i < |pieces| ensures Trim(pieces[i]) == skills[i] {
      TrimPadded(pads[i].0, skills[i], pads[i].1);
    }
  }

  /** The checks of `POST /api/profile`, in declaration order. */
  function ProfileChecks(req: ProfileRequest): (checks: seq<Check>)
    ensures ValidationErrors(checks) == [] <==> Truthy(req.status) && Truthy(req.skills)
    ensures !Truthy(req.status) ==> ValidationErrors(checks)[0] == StatusRequired
    ensures Truthy(req.status) && !Truthy(req.skills) ==> ValidationErrors(checks) == [SkillsRequired]
  {
    var checks := [ Check(req.status != "", StatusRequired),
                    Check(req.skills != "", SkillsRequired) ];
    ValidationErrorsOfPair(checks[0], checks[1]);
    checks
  }

  /** `profileFields` as the handler builds it; `social` is reset to `{}`
      before the truthy links are copied into it. */
  function BuildFields(id: UserId, req: ProfileRequest): (f: ProfileFields)
    ensures f.user == id
    ensures Carries(f.company, req.company) && Carries(f.website, req.website)
    ensures Carries(f.location, req.location) && Carries(f.bio, req.bio)
    ensures Carries(f.status, req.status) && Carries(f.githubusername, req.githubusername)
    ensures f.skills.Some? <==> Truthy(req.skills)
    ensures f.skills.Some? ==> f.skills.value == ParseSkills(req.skills)
    ensures Carries(f.social.youtube, req.youtube) && Carries(f.social.facebook, req.facebook)
    ensures Carries(f.social.twitter, req.twitter) && Carries(f.social.linkedin, req.linkedin)
    ensures Carries(f.social.instagram, req.instagram)
  {
    ProfileFields(
      id,
      IfTruthy(req.company), IfTruthy(req.website), IfTruthy(req.location),
      IfTruthy(req.bio), IfTruthy(req.status), IfTruthy(req.githubusername),
      if Truthy(req.skills) then Some(ParseSkills(req.skills)) else None,
      Social(IfTruthy(req.youtube), IfTruthy(req.twitter), IfTruthy(req.facebook),
             IfTruthy(req.linkedin), IfTruthy(req.instagram)))
  }

  /** One `$set` key: the new value when the key is present, else the stored one. */
  function Overwrite(given: Option<string>, stored: Option<string>): (o: Option<string>)
    ensures given.Some? ==> o == given
    ensures given.None? ==> o == stored
  {
    if given.Some? then given else stored
  }

  /** `findOneAndUpdate({ user }, { $set: profileFields })`: keys present in
      `f` overwrite, absent keys keep their stored values, and `social`, a
      key that is always present, is replaced as a whole. */
  function SetFields(p: Profile, f: ProfileFields): (q: Profile)
    ensures q.user == f.user
    ensures f.company.Some? ==> q.company == f.company
    ensures f.company.None? ==> q.company == p.company
    ensures f.website.Some? ==> q.website == f.website
    ensures f.website.None? ==> q.website == p.website
    ensures f.location.Some? ==> q.location == f.location
    ensures f.location.None? ==> q.location == p.location
    ensures f.bio.Some? ==> q.bio == f.bio
    ensures f.bio.None? ==> q.bio == p.bio
    ensures f.status.Some? ==> q.status == f.status
    ensures f.status.None? ==> q.status == p.status
    ensures f.githubusername.Some? ==> q.githubusername == f.githubusername
    ensures f.githubusername.None? ==> q.githubusername == p.githubusername
    ensures f.skills.Some? ==> q.skills == f.skills.value
    ensures f.skills.None? ==> q.skills == p.skills
    ensures q.social == f.social
    ensures q.experience == p.experience && q.education == p.education
  {
    var q := Profile(
      f.user,
      Overwrite(f.company, p.company), Overwrite(f.website, p.website),
      Overwrite(f.location, p.location), Overwrite(f.bio, p.bio),
      Overwrite(f.status, p.status), Overwrite(f.githubusername, p.githubusername),
      if f.skills.Some? then f.skills.value else p.skills,
      f.social, p.experience, p.education);
    q
  }

  /** `new Profile(profileFields)`: absent strings unset, arrays empty. */
  function NewProfile(f: ProfileFields): (p: Profile)
    ensures p.user == f.user && p.social == f.social
    ensures p.company == f.company && p.website == f.website && p.location == f.location
    ensures p.bio == f.bio && p.status == f.status && p.githubusername == f.githubusername
    ensures p.skills == (if f.skills.Some? then f.skills.value else [])
    ensures p.experience == [] && p.education == []
  {
    Profile(f.user, f.company, f.website, f.location, f.bio, f.status, f.githubusername,
            if f.skills.Some? then f.skills.value else [], f.social, [], [])
  }

  /** The create-or-update handler, `POST /api/profile`. */
  function Upsert(db: Db, id: UserId, req: ProfileRequest): (r: Response<Profile>)
    // missing status or skills: 400 with the failing messages, nothing written
    ensures ValidationErrors(ProfileChecks(req)) != [] ==>
      r == Response(db, Fail(BadRequest, ValidationErrors(ProfileChecks(req))))
    ensures r.result.Ok? <==> Truthy(req.status) && Truthy(req.skills)
    // success: the requester's profile, and only it, becomes the answered one
    ensures r.result.Ok? ==>
      && r.result.value.user == id
      && r.db == db.(profiles := db.profiles[id := r.result.value])
    ensures r.result.Ok? && id !in db.profiles ==> r.result.value == NewProfile(BuildFields(id, req))
    ensures r.result.Ok? && id in db.profiles ==>
      r.result.value == SetFields(db.profiles[id], BuildFields(id, req))
  {
    var checks := ProfileChecks(req);
    var errors := ValidationErrors(checks);
    if errors != [] then Response(db, Fail(BadRequest, errors))
    else
      assert checks[0].passes && checks[1].passes;
      var fields := BuildFields(id, req);
      var profile := if id in db.profiles then SetFields(db.profiles[id], fields) else NewProfile(fields);
      Response(db.(profiles := db.profiles[id := profile]), Ok(profile))
  }

  /** The partial merge, in terms of the request: on update a top-level field
      the request leaves empty keeps its stored value, a given one replaces
      it, and `social` holds exactly the links of this request, so stored
      links the request omits are cleared. */
  lemma UpsertMerges(db: Db, id: UserId, req: ProfileRequest)
    requires id in db.profiles
    requires Upsert(db, id, req).result.Ok?
    ensures var p, q := db.profiles[id], Upsert(db, id, req).result.value;
      && (if Truthy(req.company) then q.company == Some(req.company) else q.company == p.company)
      && (if Truthy(req.website) then q.website == Some(req.website) else q.website == p.website)
      && (if Truthy(req.location) then q.location == Some(req.location) else q.location == p.location)
      && (if Truthy(req.bio) then q.bio == Some(req.bio) else q.bio == p.bio)
      && (if Truthy(req.githubusername) then q.githubusername == Some(req.githubusername)
          else q.githubusername == p.githubusername)
      && q.status == Some(req.status)
      && q.skills == ParseSkills(req.skills)
      && Carries(q.social.youtube, req.youtube) && Carries(q.social.facebook, req.facebook)
      && Carries(q.social.twitter, req.twitter) && Carries(q.social.linkedin, req.linkedin)
      && Carries(q.social.instagram, req.instagram)
      && q.experience == p.experience && q.education == p.education
  {
  }

  /** On creation the profile holds exactly the request's truthy fields. */
  lemma UpsertCreates(db: Db, id: UserId, req: ProfileRequest)
    requires id !in db.profiles
    requires Upsert(db, id, req).result.Ok?
    ensures var q := Upsert(db, id, req).result.value;
      && Carries(q.company, req.company) && Carries(q.website, req.website)
      && Carries(q.location, req.location) && Carries(q.bio, req.bio)
      && Carries(q.githubusername, req.githubusername)
      && q.status == Some(req.status) && q.skills == ParseSkills(req.skills)
      && Carries(q.social.youtube, req.youtube) && Carries(q.social.facebook, req.facebook)
      && Carries(q.social.twitter, req.twitter) && Carries(q.social.linkedin, req.linkedin)
      && Carries(q.social.instagram, req.instagram)
      && q.experience == [] && q.education == []
  {
  }

  /** Submitting the same form twice has the effect of submitting it once. */
  lemma UpsertIdempotent(db: Db, id: UserId, req: ProfileRequest)
    ensures var once := Upsert(db, id, req);
      Upsert(once.db, id, req) == once
  {
    var once := Upsert(db, id, req);
    if once.result.Ok? {
      UpsertSettles(db, id, req);
      assert once.db.profiles[id] == once.result.value;
      UpsertOfSettled(once.db, id, req);
    }
  }

  /** Resubmitting fields the stored profile already holds writes nothing new. */
  lemma UpsertOfSettled(db: Db, id: UserId, req: ProfileRequest)
    requires Truthy(req.status) && Truthy(req.skills)
    requires id in db.profiles && Settled(db.profiles[id], BuildFields(id, req))
    ensures Upsert(db, id, req) == Response(db, Ok(db.profiles[id]))
  {
    var q := db.profiles[id];
    SetFieldsSettles(q, BuildFields(id, req));
    assert db.(profiles := db.profiles[id := q]) == db;
  }

  /** `q` already holds every key that `f` sets. */
  predicate Settled(q: Profile, f: ProfileFields) {
    && q.user == f.user && q.social == f.social
    && (f.company.Some? ==> q.company == f.company)
    && (f.website.Some? ==> q.website == f.website)
    && (f.location.Some? ==> q.location == f.location)
    && (f.bio.Some? ==> q.bio == f.bio)
    && (f.status.Some? ==> q.status == f.status)
    && (f.githubusername.Some? ==> q.githubusername == f.githubusername)
    && (f.skills.Some? ==> q.skills == f.skills.value)
  }

  /** The profile an upsert answers holds every key of the request's fields. */
  lemma UpsertSettles(db: Db, id: UserId, req: ProfileRequest)
    requires Upsert(db, id, req).result.Ok?
    ensures Settled(Upsert(db, id, req).result.value, BuildFields(id, req))
  {
  }

  /** Applying the same fields to a profile that already carries them
      changes nothing. */
  lemma SetFieldsSettles(q: Profile, f: ProfileFields)
    requires Settled(q, f)
    ensures SetFields(q, f) == q
  {
  }

  /** Upsert keeps every store invariant; afterwards the requester has
      exactly one profile, filed under them. */
  lemma UpsertPreservesValid(db: Db, id: UserId, req: ProfileRequest)
    requires Valid(db)
    ensures Valid(Upsert(db, id, req).db)
    ensures Upsert(db, id, req).result.Ok? ==>
      id in Upsert(db, id, req).db.profiles && Upsert(db, id, req).db.profiles[id].user == id
  {
  }

  /** `Profile.findOne({ user })`, answering 400 with `msg` when absent. */
  function FindProfile(db: Db, id: UserId, msg: string): (r: Response<Profile>)
    ensures r.db == db
    ensures r.result.Ok? <==> id in db.profiles
    ensures r.result.Ok? ==> r.result.value == db.profiles[id]
    ensures r.result.Fail? ==> r.result == Fail(BadRequest, [msg])
  {
    if id in db.profiles then Response(db, Ok(db.profiles[id])) else Response(db, Fail(BadRequest, [msg]))
  }

  /** `GET /api/profile/me`. */
  function MyProfile(db: Db, id: UserId): (r: Response<Profile>)
    ensures r.db == db
    ensures id in db.profiles ==> r.result == Ok(db.profiles[id])
    ensures id !in db.profiles ==> r.result == Fail(BadRequest, [NoProfileForUser])
  {
    FindProfile(db, id, NoProfileForUser)
  }

  /** `GET /api/profile/user/:user_id`. */
  function ProfileOfUser(db: Db, userId: UserId): (r: Response<Profile>)
    ensures r.db == db
    ensures userId in db.profiles ==> r.result == Ok(db.profiles[userId])
    ensures userId !in db.profiles ==> r.result == Fail(BadRequest, [NoSuchProfile])
  {
    FindProfile(db, userId, NoSuchProfile)
  }

  /** `User.findOneAndRemove({ _id })`: drops the first user with that id. */
  function RemoveUser(users: seq<User>, id: UserId): (r: seq<User>)
    ensures FreshUserId(users, id) ==> r == users
    ensures !FreshUserId(users, id) ==> |r| == |users| - 1
    ensures forall u :: u in r ==> u in users
    ensures UniqueUserIds(users) ==> FreshUserId(r, id)
    ensures UniqueUserIds(users) ==> forall u :: u in users && u.id != id ==> u in r
  {
    var i := FirstIndex(users, UserKey, id);
    if i < 0 then users
    else
      var r := users[..i] + users[i + 1..];
      assert forall j :: 0 <= j < |r| ==> r[j] == users[if j < i then j else j + 1];
      assert forall u :: u in users && u != users[i] ==> u in r by {
        forall u | u in users && u != users[i] ensures u in r {
          var k :| 0 <= k < |users| && users[k] == u;
          if k < i { assert r[k] == u; } else { assert r[k - 1] == u; }
        }
      }
      r
  }

  /** `DELETE /api/profile`: removes the requester's profile and account. */
  function DeleteAccount(db: Db, id: UserId): (r: Response<string>)
    ensures r.result == Ok(UserDeleted)
    ensures r.db.profiles == db.profiles - {id}
    ensures r.db.users == RemoveUser(db.users, id)
    ensures r.db.posts == db.posts
  {
    Response(Db(RemoveUser(db.users, id), db.profiles - {id}, db.posts), Ok(UserDeleted))
  }

  /** The lookups see what the handlers wrote: after a successful upsert
      both answer the stored profile, and after account deletion both
      answer their not-found message, while other users' profiles stay
      visible. */
  lemma LookupsFollowWrites(db: Db, id: UserId, other: UserId, req: ProfileRequest)
    requires other != id
    ensures var up := Upsert(db, id, req);
      up.result.Ok? ==>
        && MyProfile(up.db, id).result == up.result
        && ProfileOfUser(up.db, id).result == up.result
        && ProfileOfUser(up.db, other).result == ProfileOfUser(db, other).result
    ensures var gone := DeleteAccount(db, id).db;
      && MyProfile(gone, id).result == Fail(BadRequest, [NoProfileForUser])
      && ProfileOfUser(gone, id).result == Fail(BadRequest, [NoSuchProfile])
      && ProfileOfUser(gone, other).result == ProfileOfUser(db, other).result
  {
  }

  /** After deletion no profile and no account of the requester remain, and
      every other profile and account is still there. */
  lemma DeleteAccountRemovesExactly(db: Db, id: UserId)
    requires Valid(db)
    ensures var after := DeleteAccount(db, id).db;
      && id !in after.profiles
      && (forall u :: u in db.profiles && u != id ==> u in after.profiles && after.profiles[u] == db.profiles[u])
      && FreshUserId(after.users, id)
      && (forall u :: u in db.users && u.id != id <==> u in after.users)
      && Valid(after)
  {
    var users, after := db.users, RemoveUser(db.users, id);
    assert forall u :: u in after ==> u.id != id by {
      forall u | u in after ensures u.id != id {
        var k :| 0 <= k < |after| && after[k] == u;
      }
    }
    SubsequenceKeepsUnique(users, id);
  }

  lemma SubsequenceKeepsUnique(users: seq<User>, id: UserId)
    requires UniqueUserIds(users) && UniqueEmails(users)
    ensures UniqueUserIds(RemoveUser(users, id)) && UniqueEmails(RemoveUser(users, id))
  {
    var i := FirstIndex(users, UserKey, id);
    if i >= 0 {
      RemoveAtKeepsUnique(users, i);
    }
  }

  lemma RemoveAtKeepsUnique(users: seq<User>, i: nat)
    requires i < |users|
    requires UniqueUserIds(users) && UniqueEmails(users)
    ensures UniqueUserIds(users[..i] + users[i + 1..]) && UniqueEmails(users[..i] + users[i + 1..])
  {
    var r := users[..i] + users[i + 1..];
    forall a, b | 0 <= a < b < |r|
      ensures r[a].id != r[b].id && r[a].email != r[b].email
    {
      var a', b' := if a < i then a else a + 1, if b < i then b else b + 1;
      assert r[a] == users[a'] && r[b] == users[b'] && a' < b';
    }
  }
}

=== FILE: scenarios.dfy ===
/** Properties that span several handlers: what registration promises to a
    later login, and the end-to-end account walk-through. */
module Scenarios {
  import opened Outcomes
  import opened JsText
  import opened Store
  import opened Library
  import opened Users
  import opened Auth
  import opened Profiles

  /** After a successful registration, logging in with the same email and
      password succeeds for the new account, and the token names it. As
      written, the answer also carries the account's stored bcrypt hash. */
  lemma RegisterThenLogin(db: Db, lib: Lib, req: RegisterRequest, salt: string, id: UserId)
    requires Sound(lib)
    requires FreshUserId(db.users, id)
    requires Register(db, lib, req, salt, id).result.Ok?
    ensures var login := Login(Register(db, lib, req, salt, id).db, lib, LoginRequest(req.email, req.password));
      && login.result.Ok?
      && login.result.value.user == NewUser(lib, req, salt, id)
      && login.result.value.token.payload.userId == id
      && login.result.value.user.password == lib.hash(req.password, salt)
  {
    var users := Register(db, lib, req, salt, id).db.users;
    var u := NewUser(lib, req, salt, id);
    assert users == db.users + [u];
    var i := FirstIndex(users, EmailKey, req.email);
    assert EmailKey(users[|users| - 1]) == req.email;
    assert i == |users| - 1;
    var checks := LoginChecks(lib, LoginRequest(req.email, req.password));
    assert checks[0].passes && checks[1].passes;
    assert lib.compare(req.password, lib.hash(req.password, salt));
  }

  /** `"go,rust"` parses to the two skills. */
  lemma ParseGoRust()
    ensures ParseSkills("go,rust") == ["go", "rust"]
  {
    var pieces := ["go", "rust"];
    assert Join(pieces, ',') == "go,rust";
    assert "" + "go" + "" == "go" && "" + "rust" + "" == "rust";
    ParseSkillsOfJoin(pieces, pieces, [("", ""), ("", "")]);
  }

  function ProfileForm(status: string, skills: string): ProfileRequest {
    ProfileRequest("", "", "", "", status, "", skills, "", "", "", "", "")
  }

  function Alice(): RegisterRequest {
    RegisterRequest("alice", "alice@example.com", "password123")
  }

  /** Alice's registration passes validation: "password123" is long enough. */
  lemma AliceIsValid(lib: Lib)
    requires lib.isEmail("alice@example.com")
    ensures ValidationErrors(RegisterChecks(lib, Alice())) == []
  {
    var pw := Alice().password;
    assert MeasuredLength(pw) == |pw| by {
      forall k | 0 <= k < |pw| ensures !IsPresentationSelector(pw[k]) {
        assert pw[k] in "password123";
      }
    }
  }

  /** Register a user, log in, read the current user (no password field),
      submit a profile with status "Developer" and skills "go,rust", and find
      it by user id with skills ["go", "rust"]. */
  lemma AccountWalkThrough(lib: Lib, salt: string, id: UserId)
    requires Sound(lib)
    requires lib.isEmail("alice@example.com")
    ensures var reg := Register(Db([], map[], map[]), lib, Alice(), salt, id);
      && reg.result.Ok?
      && Login(reg.db, lib, LoginRequest("alice@example.com", "password123")).result.Ok?
      && CurrentUser(reg.db, id).result
           == Ok(Some(PublicUser(id, "alice", "alice@example.com", lib.gravatar("alice@example.com"))))
      && var prof := Upsert(reg.db, id, ProfileForm("Developer", "go,rust"));
      && prof.result.Ok?
      && ProfileOfUser(prof.db, id).result.Ok?
      && ProfileOfUser(prof.db, id).result.value.skills == ["go", "rust"]
      && ProfileOfUser(prof.db, id).result.value.status == Some("Developer")
  {
    AliceIsValid(lib);
    RegisterThenLogin(Db([], map[], map[]), lib, Alice(), salt, id);
    DeveloperProfile(Register(Db([], map[], map[]), lib, Alice(), salt, id).db, id);
  }

  /** Submitting status "Developer" and skills "go,rust" files a profile
      that the lookup by user id answers with those values. */
  lemma DeveloperProfile(db: Db, id: UserId)
    ensures var prof := Upsert(db, id, ProfileForm("Developer", "go,rust"));
      && prof.result.Ok?
      && ProfileOfUser(prof.db, id).result.Ok?
      && ProfileOfUser(prof.db, id).result.value.skills == ["go", "rust"]
      && ProfileOfUser(prof.db, id).result.value.status == Some("Developer")
  {
    ParseGoRust();
  }

  /** A second submission that carries a status but no skills is refused by
      the skills check, so the stored skills stay as first submitted. */
  lemma ResubmitWithoutSkillsIsRefused(db: Db, id: UserId)
    ensures var first := Upsert(db, id, ProfileForm("A", "x,y"));
      && first.result.Ok?
      && Upsert(first.db, id, ProfileForm("B", "")) == Response(first.db, Fail(BadRequest, [SkillsRequired]))
      && first.db.profiles[id].skills == ParseSkills("x,y")
  {
    var checks := ProfileChecks(ProfileForm("B", ""));
    assert ValidationErrors(checks[1..]) == [SkillsRequired];
  }
}

=== FILE: store.dfy ===
/** The documents the handlers read and write, and the store that holds them.

    The `users` collection is a sequence in natural order, so that
    `findOne({email})` is "the first user whose email matches". Posts are
    found by id and profiles by their owner, so those collections are maps
    keyed accordingly. Identifiers are MongoDB ObjectIds, abstracted to
    natural numbers compared by equality. */
module Store {
  import opened Outcomes

  type UserId = nat
  type PostId = nat
  type CommentId = nat

  /** A registered account; `password` holds the bcrypt hash. */
  datatype User = User(id: UserId, name: string, email: string, avatar: string, password: string)

  /** A comment embedded in a post, with a snapshot of its author's name and avatar. */
  datatype Comment = Comment(id: CommentId, user: UserId, text: string, name: string, avatar: string)

  /** A feed post. `likes` lists the users who like it, most recent first;
      `comments` are newest first. `name` and `avatar` snapshot the author. */
  datatype Post = Post(
    id: PostId, user: UserId, text: string, name: string, avatar: string,
    likes: seq<UserId>, comments: seq<Comment>)

  /** The `social` sub-document of a profile: one optional link per platform. */
  datatype Social = Social(
    youtube: Option<string>, twitter: Option<string>, facebook: Option<string>,
    linkedin: Option<string>, instagram: Option<string>)

  const NoLinks := Social(None, None, None, None, None)

  datatype Experience = Experience(
    id: nat, title: string, company: string, location: string,
    from: string, to: string, current: bool, description: string)

  datatype Education = Education(
    id: nat, school: string, degree: string, fieldofstudy: string,
    from: string, to: string, current: bool, description: string)

  /** A profile document. Optional string fields are `None` when never set;
      the array fields default to empty, as the schema's arrays do. */
  datatype Profile = Profile(
    user: UserId,
    company: Option<string>, website: Option<string>, location: Option<string>,
    bio: Option<string>, status: Option<string>, githubusername: Option<string>,
    skills: seq<string>, social: Social,
    experience: seq<Experience>, education: seq<Education>)

  datatype Db = Db(users: seq<User>, profiles: map<UserId, Profile>, posts: map<PostId, Post>)

  /** What a handler leaves behind: the store after the request and its answer. */
  datatype Response<+T> = Response(db: Db, result: Result<T>)

  /** `Array.prototype.indexOf` / `findIndex` on a projection: the first index
      whose key equals `k`, or -1 when there is none. */
  function FirstIndex<T, K(==)>(s: seq<T>, key: T -> K, k: K): (i: int)
    ensures -1 <= i < |s|
    ensures i == -1 <==> forall j :: 0 <= j < |s| ==> key(s[j]) != k
    ensures 0 <= i ==> key(s[i]) == k && forall j :: 0 <= j < i ==> key(s[j]) != k
  {
    if s == [] then -1
    else if key(s[0]) == k then 0
    else
      var i := FirstIndex(s[1..], key, k);
      assert forall j :: 1 <= j < |s| ==> s[j] == s[1..][j - 1];
      if i == -1 then -1 else i + 1
  }

  /** `arr.splice(start, 1)`: removes one element. A negative start counts
      from the end (clamped at 0); a start past the end removes nothing. */
  function SpliceOne<T>(s: seq<T>, start: int): (r: seq<T>)
    ensures 0 <= start < |s| ==> r == s[..start] + s[start + 1..]
    ensures start >= |s| ==> r == s
    ensures start < 0 && |s| > 0 ==>
      var k := if |s| + start < 0 then 0 else |s| + start;
      r == s[..k] + s[k + 1..]
  {
    var k := if start < 0 then (if |s| + start < 0 then 0 else |s| + start) else start;
    if k < |s| then s[..k] + s[k + 1..] else s
  }

  /** With a -1 index, `splice` drops the last element. */
  lemma SpliceMinusOneDropsLast<T>(s: seq<T>)
    requires |s| > 0
    ensures SpliceOne(s, -1) == s[..|s| - 1]
  {
  }

  function UserKey(u: User): UserId { u.id }
  function EmailKey(u: User): string { u.email }
  function CommentKey(c: Comment): CommentId { c.id }

  /** `User.findById(id)`: the first user with that id. */
  function FindUser(users: seq<User>, id: UserId): (r: Option<User>)
    ensures r.Some? <==> exists i :: 0 <= i < |users| && users[i].id == id
    ensures r.Some? ==> r.value in users && r.value.id == id
    // the first match, as a query in natural order answers
    ensures r.Some? ==>
      exists i :: 0 <= i < |users| && users[i] == r.value && (forall j :: 0 <= j < i ==> users[j].id != id)
  {
    var i := FirstIndex(users, UserKey, id);
    if i < 0 then None else Some(users[i])
  }

  /** `User.findOne({email})`: the first user with that email. */
  function FindByEmail(users: seq<User>, email: string): (r: Option<User>)
    ensures r.Some? <==> exists i :: 0 <= i < |users| && users[i].email == email
    ensures r.Some? ==> r.value in users && r.value.email == email
    // the first match, as a query in natural order answers
    ensures r.Some? ==>
      exists i :: 0 <= i < |users| && users[i] == r.value && (forall j :: 0 <= j < i ==> users[j].email != email)
  {
    var i := FirstIndex(users, EmailKey, email);
    if i < 0 then None else Some(users[i])
  }

  predicate NoDuplicates<T(==)>(s: seq<T>) {
    forall i, j :: 0 <= i < j < |s| ==> s[i] != s[j]
  }

  predicate UniqueUserIds(users: seq<User>) {
    forall i, j :: 0 <= i < j < |users| ==> users[i].id != users[j].id
  }

  /** The registration invariant: no two accounts share an email. */
  predicate UniqueEmails(users: seq<User>) {
    forall i, j :: 0 <= i < j < |users| ==> users[i].email != users[j].email
  }

  predicate PostsKeyed(posts: map<PostId, Post>) {
    forall k :: k in posts ==> posts[k].id == k
  }

  /** At most one profile per user: each profile is filed under its owner. */
  predicate ProfilesKeyed(profiles: map<UserId, Profile>) {
    forall u :: u in profiles ==> profiles[u].user == u
  }

  /** No user appears twice in the likes of any post. */
  predicate LikesDistinct(posts: map<PostId, Post>) {
    forall k :: k in posts ==> NoDuplicates(posts[k].likes)
  }

  /** The invariants every handler keeps. */
  predicate Valid(db: Db) {
    && UniqueUserIds(db.users)
    && UniqueEmails(db.users)
    && PostsKeyed(db.posts)
    && ProfilesKeyed(db.profiles)
    && LikesDistinct(db.posts)
  }

  /** A fresh ObjectId for a new user. */
  predicate FreshUserId(users: seq<User>, id: UserId) {
    forall i :: 0 <= i < |users| ==> users[i].id != id
  }
}

=== FILE: users.dfy ===
/** Registration, `POST /api/users` (routes/api/users.js). */
module Users {
  import opened Outcomes
  import opened Store
  import opened Library
  import opened JsText

  /** The body `{ name, email, password }`; an absent field is "". */
  datatype RegisterRequest = RegisterRequest(name: string, email: string, password: string)

  datatype TokenReply = TokenReply(token: Token)

  const MinPasswordLength: nat := 6

  const NameRequired := "Name is required"
  const EmailTaken := "userid(email) already exists"

  /** The variation selectors validator.js's `isLength` leaves uncounted. */
  predicate IsPresentationSelector(c: char) {
    c == '\U{FE0E}' || c == '\U{FE0F}'
  }

  /** The length `isLength` measures: code points (a surrogate pair counts
      once), without the presentation selectors. */
  function MeasuredLength(s: string): (n: nat)
    ensures n <= |s|
    ensures n == |s| - Count(s, '\U{FE0E}') - Count(s, '\U{FE0F}')
    ensures (forall k :: 0 <= k < |s| ==> !IsPresentationSelector(s[k])) ==> n == |s|
    ensures (forall k :: 0 <= k < |s| ==> IsPresentationSelector(s[k])) ==> n == 0
  {
    if s == "" then 0
    else (if IsPresentationSelector(s[0]) then 0 else 1) + MeasuredLength(s[1..])
  }

  /** The three declared checks, in declaration order. */
  function RegisterChecks(lib: Lib, req: RegisterRequest): (checks: seq<Check>)
    ensures |checks| == 3
    ensures ValidationErrors(checks) == [] <==>
      req.name != "" && lib.isEmail(req.email) && MeasuredLength(req.password) >= MinPasswordLength
    // the first message reported names the first rule broken
    ensures req.name == "" ==> ValidationErrors(checks)[0] == NameRequired
    ensures req.name != "" && !lib.isEmail(req.email) ==> ValidationErrors(checks)[0] == InvalidEmail
    ensures req.name != "" && lib.isEmail(req.email) && MeasuredLength(req.password) < MinPasswordLength ==>
      ValidationErrors(checks) == [InvalidPassword]
  {
    var checks := [ Check(req.name != "", NameRequired),
                    Check(lib.isEmail(req.email), InvalidEmail),
                    Check(MeasuredLength(req.password) >= MinPasswordLength, InvalidPassword) ];
    ValidationErrorsOfTriple(checks[0], checks[1], checks[2]);
    checks
  }

  /** The account a successful registration stores: avatar derived from the
      email and the password replaced by its salted hash. */
  function NewUser(lib: Lib, req: RegisterRequest, salt: string, id: UserId): (u: User)
    ensures u.id == id && u.name == req.name && u.email == req.email
    ensures u.avatar == lib.gravatar(req.email)
    ensures u.password == lib.hash(req.password, salt)
  {
    User(id, req.name, req.email, lib.gravatar(req.email), lib.hash(req.password, salt))
  }

  /** The register handler. `salt` is what `bcrypt.genSalt(10)` produced and
      `id` the ObjectId the new document receives. */
  function Register(db: Db, lib: Lib, req: RegisterRequest, salt: string, id: UserId): (r: Response<TokenReply>)
    requires FreshUserId(db.users, id)
    // any validation failure answers 400 with every failing message, before the store is consulted
    ensures ValidationErrors(RegisterChecks(lib, req)) != [] ==>
      r == Response(db, Fail(BadRequest, ValidationErrors(RegisterChecks(lib, req))))
    // the rules in words
    ensures r.result.Ok? ==> req.name != "" && lib.isEmail(req.email) && MeasuredLength(req.password) >= 6
    // an email already registered is refused and nothing is written
    ensures ValidationErrors(RegisterChecks(lib, req)) == [] && FindByEmail(db.users, req.email).Some? ==>
      r == Response(db, Fail(BadRequest, [EmailTaken]))
    ensures r.result.Fail? ==> r.db == db
    // success appends exactly the new account and issues its token
    ensures r.result.Ok? <==>
      ValidationErrors(RegisterChecks(lib, req)) == [] && FindByEmail(db.users, req.email).None?
    ensures r.result.Ok? ==>
      && r.db.users == db.users + [NewUser(lib, req, salt, id)]
      && r.db.profiles == db.profiles && r.db.posts == db.posts
      && r.result.value.token.payload.userId == id
  {
    var checks := RegisterChecks(lib, req);
    var errors := ValidationErrors(checks);
    if errors != [] then Response(db, Fail(BadRequest, errors))
    else if FindByEmail(db.users, req.email).Some? then Response(db, Fail(BadRequest, [EmailTaken]))
    else
      assert checks[0].passes && checks[1].passes && checks[2].passes;
      var user := NewUser(lib, req, salt, id);
      Response(db.(users := db.users + [user]), Ok(TokenReply(IssueToken(user.id))))
  }

  /** Registration keeps every store invariant, emails unique in particular. */
  lemma RegisterPreservesValid(db: Db, lib: Lib, req: RegisterRequest, salt: string, id: UserId)
    requires Valid(db) && FreshUserId(db.users, id)
    ensures Valid(Register(db, lib, req, salt, id).db)
  {
    var r := Register(db, lib, req, salt, id);
    if r.result.Ok? {
      var users := r.db.users;
      assert users[|users| - 1].email == req.email;
      forall i, j | 0 <= i < j < |users|
        ensures users[i].email != users[j].email && users[i].id != users[j].id
      {
        if j == |users| - 1 {
          assert users[i] == db.users[i];
        } else {
          assert users[i] == db.users[i] && users[j] == db.users[j];
        }
      }
    }
  }

  /** A second registration with the same email fails, with any valid password. */
  lemma RegisterTwiceFails(db: Db, lib: Lib, req: RegisterRequest, salt: string, id: UserId,
                           again: RegisterRequest, salt2: string, id2: UserId)
    requires FreshUserId(db.users, id)
    requires Register(db, lib, req, salt, id).result.Ok?
    requires again.email == req.email
    requires ValidationErrors(RegisterChecks(lib, again)) == []
    requires FreshUserId(Register(db, lib, req, salt, id).db.users, id2)
    ensures var db' := Register(db, lib, req, salt, id).db;
      Register(db', lib, again, salt2, id2) == Response(db', Fail(BadRequest, [EmailTaken]))
  {
    var users := Register(db, lib, req, salt, id).db.users;
    assert users[|users| - 1].email == again.email;
  }
}
